=== FILE: README.md ===
# ddtrace-asgi, modelled in Dafny

ddtrace-asgi is an ASGI middleware. It wraps an ASGI application and traces
each HTTP request with Datadog's `ddtrace` tracer. This project models its
core as pure Dafny functions and proves properties about them.

- **Static tag parsing.** `parse_tags_from_list` splits each `name:value`
  token at its first colon; later tokens overwrite earlier ones. The
  deprecated `parse_tags_from_string` cuts a comma-separated string into
  stripped tokens and hands them to the list parser. These are modules
  `TagParsing` and `DeprecatedTags`, built on `str.partition`, `str.strip`
  and `str(int)` in `Strings`.
- **The backend.** `TraceBackend.on_http_request` sets the request span's
  resource to `"<method> <path>"` and tags it with the method, the URL, the
  query string (when configured) and the analytics sample rate. A request whose method or
  URL is missing gets its span marked to be dropped instead.
  `TraceBackend.on_http_response` records the status code and the response
  headers. This is module `Backends`.
- **The middleware.** The constructor resolves the defaults and the `tags`
  argument. `send_with_tracing` forwards each message and annotates the
  current span when a response starts. `__call__` does four things:
  - stamps the tracer into the scope;
  - passes non-HTTP scopes straight through;
  - activates a distributed context taken from the request headers;
  - runs the application inside an `"asgi.request"` span.

  This is module `Middleware`, with its properties in
  `MiddlewareProperties`.

The tracer is modelled as plain state (module `Tracing`):
- the spans created so far, each with its parent link and how many times it
  was finished;
- the current span;
- the activated distributed context.

These collaborators are parameters, gathered in the `Env` datatype of
`Externals`:
- Starlette's URL builder;
- ddtrace's request and response header capture;
- the HTTP propagator's `extract`.

The wrapped application is described by what it does: the messages it
sends, the child spans it opens around some of them, and the exception it
ends with. Each child span stands for a nested `with tracer.trace(...)`
block that writes only on the span it opens. What the model says about the
application's own spans follows from that description, not from anything
the middleware enforces.

Where the project's tests or its older code disagree with the current code,
the model follows the current code:
- **Tokens without a colon are accepted.** The test table at
  `tests/test_trace_middleware.py:264` expects a `ValueError` for the token
  `"env-testing"`. The code splits with `str.partition`
  (`src/ddtrace_asgi/_utils.py:8`), which never fails, so the token becomes
  the tag `{"env-testing": ""}`. The model shows what the code does
  (`TagParsing.NoColonExample`).
- **Static tags are written before the backend runs.** The superseded
  `src/ddtrace_asgi/middleware.py:78-87` writes the built-in tags first and
  the static tags after them. The current code
  (`src/ddtrace_asgi/_middleware.py:75-76`) writes the static tags first,
  so the backend's method and URL tags win over a static tag with the same
  name (`MiddlewareProperties.StaticTagsThenBackend`).
- **A scope without a `"type"` key fails.** `scope["type"]` raises
  `KeyError` after the tracer has been stamped into the scope, and the
  application never runs.

## Model

| member | source | states |
|---|---|---|
| Strings.Partition | src/ddtrace_asgi/_utils.py:8 | `str.partition`: when the separator occurs, head + separator + tail is the input and the head holds no separator; otherwise the whole input is the head and the rest is empty |
| Strings.PartitionUnique | src/ddtrace_asgi/_utils.py:8 | the split point is the first separator: any decomposition whose head has no separator is the partition |
| Strings.Strip | src/ddtrace_asgi/_deprecated/utils.py:18 | `str.strip` leaves text with no whitespace at either end, and the input is that text padded only with whitespace on both sides |
| Strings.StripPadded | src/ddtrace_asgi/_deprecated/utils.py:18 | stripping whitespace padding from trimmed text gives back exactly that text |
| Strings.DecimalString | src/ddtrace_asgi/_backends.py:55 | `str(n)`: a leading minus sign exactly for negative numbers, then digits with no leading zero |
| Strings.DecimalRoundTrip | src/ddtrace_asgi/_backends.py:53-55 | the decimal text of every integer reads back as that integer |
| TagParsing.ParseTagsFromList | src/ddtrace_asgi/_utils.py:4-11 | the parsed keys are exactly the first-colon names of the tokens, and each name holds the value of its last token |
| TagParsing.EmptyListExample | src/ddtrace_asgi/_utils.py:5-11 | the empty token list gives the empty map |
| TagParsing.ParseTagsSize | src/ddtrace_asgi/_utils.py:7-9 | at most one entry per token |
| TagParsing.ParseTagsAppend | src/ddtrace_asgi/_utils.py:7-9 | parsing two token lists one after the other is the union of their maps, the second list winning |
| TagParsing.SplitAtFirstColon | src/ddtrace_asgi/_utils.py:8-9 | a token splits at its first colon only, so the value may contain colons |
| TagParsing.TokenWithoutColon | src/ddtrace_asgi/_utils.py:8-9 | a token without a colon is accepted: it becomes a key with the empty value |
| TagParsing.StagingEastExample | tests/test_trace_middleware.py:263 | `"env:staging:east"` gives `{"env": "staging:east"}` |
| TagParsing.NoColonExample | tests/test_trace_middleware.py:264 | `"env-testing"` gives `{"env-testing": ""}` and raises nothing |
| TagParsing.LastDuplicateWins | src/ddtrace_asgi/_utils.py:9 | for a repeated name, the later token's value is kept |
| TagParsing.RenderParseRoundTrip | src/ddtrace_asgi/_utils.py:4-11 | writing every entry of a map as `name:value` and parsing gives the map back, when no name contains a colon |
| DeprecatedTags.SplitCommasPieces | src/ddtrace_asgi/_deprecated/utils.py:18 | every piece cut from the string is non-empty and contains no comma |
| DeprecatedTags.SplitJoinRoundTrip | src/ddtrace_asgi/_deprecated/utils.py:18 | cutting at commas undoes joining non-empty, comma-free pieces with commas |
| DeprecatedTags.ParseTagsFromString | src/ddtrace_asgi/_deprecated/utils.py:17-18 | the keys are exactly the first-colon names of the stripped comma-separated pieces, and each holds the value of the last piece with that name |
| DeprecatedTags.StringParseIsListParse | src/ddtrace_asgi/_deprecated/utils.py:17-18 | the string parser on comma-joined pieces is the list parser on the stripped pieces |
| DeprecatedTags.PaddingIgnored | src/ddtrace_asgi/_deprecated/utils.py:17-18 | whitespace around the tokens does not reach the parsed map |
| DeprecatedTags.EmptyStringExample | tests/test_trace_middleware.py:256 | the empty string gives no tags |
| DeprecatedTags.SingleToken | src/ddtrace_asgi/_deprecated/utils.py:17-18 | a lone trimmed `name:value` token gives exactly that entry |
| DeprecatedTags.SingleTokenExample | tests/test_trace_middleware.py:258 | `"env:testing"` gives `{"env": "testing"}` |
| DeprecatedTags.TwoTokens | src/ddtrace_asgi/_deprecated/utils.py:17-18 | two comma-separated tokens, possibly padded, give their two entries, the second winning on a shared name |
| DeprecatedTags.PaddedTokens | tests/test_trace_middleware.py:261-262 | `name1:value1,<spaces>name2:value2` gives both entries, whatever the whitespace after the comma |
| DeprecatedTags.StringRoundTrip | src/ddtrace_asgi/_deprecated/utils.py:17-18 | writing a map as comma-joined `name:value` tokens and parsing the string gives the map back, for names without colons or commas, values without commas and no whitespace at the token ends |
| Backends.OnHttpRequest | src/ddtrace_asgi/_backends.py:14-44 | a request without a method or URL only marks the span to be dropped. Otherwise: the resource is the method and path; method and URL tags; the query string tag exactly when configured; the analytics sample rate; other tags as the request headers left them; nothing else changed |
| Backends.OnHttpResponse | src/ddtrace_asgi/_backends.py:46-60 | only tags change: the status code as decimal text, then the response header tags over it; every other tag is kept; a message with neither status nor headers changes nothing |
| Backends.StatusTagReadsBack | src/ddtrace_asgi/_backends.py:53-55 | the status tag reads back as the status the application sent |
| Backends.QueryStringIffConfigured | src/ddtrace_asgi/_backends.py:38-39 | the query string tag is present exactly when `trace_query_string` is set, and then holds the URL's query |
| Backends.MissingRequestHeadersAreEmpty | src/ddtrace_asgi/_backends.py:29-32 | a scope without `headers` is annotated as one with an empty header list, and its drop mark is left as it was. With Starlette's URL builder this case never arises: `URL(scope=scope)` at line 23 already raises `KeyError` for a missing `headers`, so the default at line 29 never fires (see `Backends.InvalidRequestOnlyDropped`) |
| Backends.InvalidRequestOnlyDropped | src/ddtrace_asgi/_backends.py:21-27 | a scope missing `method`, `path` or `headers` gets a dropped span and nothing else |
| Middleware.New | src/ddtrace_asgi/_middleware.py:16-46 | construction fails with an assertion error exactly when `tags` is not a string, list or dict. Otherwise the defaults are: the global tracer; service `"asgi"`; distributed tracing on; a backend on the global configuration; no tags when omitted, and string or list tags parsed |
| Middleware.SendWithTracing | src/ddtrace_asgi/_middleware.py:48-56 | the message goes on unchanged; the tracer changes only when a span is current and the message starts a response, and then only that span, through the backend |
| Middleware.RunSteps | src/ddtrace_asgi/_middleware.py:78-79 | every message the application sends reaches the server, unchanged and in order. The run keeps the current span and the active context. Spans that already existed change only in tags, and only the current one, through the tracing `send`. Each child span of the modelled application is finished exactly once and hangs below the span that was current |
| Middleware.OpenRequestSpan | src/ddtrace_asgi/_middleware.py:65-76 | one new current, unfinished span: a child of the remote span when a context was activated, otherwise of what was current. It is annotated by the backend over the static tags; older spans are unchanged |
| Middleware.CloseRequestSpan | src/ddtrace_asgi/_middleware.py:72-79 | leaving the `with` block records the exception on the span, finishes it once, and makes its local parent (or nothing) current |
| Middleware.Call | src/ddtrace_asgi/_middleware.py:58-79 | the tracer is always stamped into the scope. A missing type raises `KeyError` before the application runs. Otherwise the application runs once: with the server's `send` for non-HTTP scopes, with the tracing `send` for HTTP ones. Every message reaches the server unchanged, and the application's exception leaves the call |
| MiddlewareProperties.RequestSpanLifecycle | src/ddtrace_asgi/_middleware.py:72-79 | an HTTP call opens exactly one `"asgi.request"` span with the service and type `"http"`, finishes it exactly once and records the application's exception on it. Each child span of the modelled application hangs below it and is finished once; older spans are untouched; the current span is restored |
| MiddlewareProperties.NonHttpPassThrough | src/ddtrace_asgi/_middleware.py:61-63 | a non-HTTP scope reaches the application with the server's `send`; the middleware writes no span, and an application that opens none leaves the tracer as it was |
| MiddlewareProperties.DistributedContextActivation | src/ddtrace_asgi/_middleware.py:65-74 | with headers, distributed tracing on and a non-zero trace id, the extracted context is activated and parents the request span; otherwise the context is left alone |
| MiddlewareProperties.StaticTagsThenBackend | src/ddtrace_asgi/_middleware.py:75-76 | the backend's resource, method, URL and sample rate win over static tags; every other static tag survives unless a request header tag replaced it |
| MiddlewareProperties.MalformedScopeStillServed | src/ddtrace_asgi/_backends.py:21-27 | a scope missing `method`, `path` or `headers` still runs the application with its messages and exception passed through; the request span keeps its default resource and the static tags and is dropped |
| MiddlewareProperties.FlatRunAnnotates | src/ddtrace_asgi/_middleware.py:48-56 | for a modelled application with no child spans, the current span is annotated by exactly the response starts sent, in order, and nothing else changes |
| MiddlewareProperties.ResponsesAnnotateRequestSpan | src/ddtrace_asgi/_middleware.py:48-79 | for a modelled application without child spans, the request span ends as the backend's request annotation, then every response start that reached the server in order, then the exception |
| MiddlewareProperties.StringAndListTagsAgree | src/ddtrace_asgi/_middleware.py:29-34 | a comma-separated `tags` string configures the same middleware as the list of its stripped pieces |

## Left out

- **Asynchrony and concurrency.** `await`, `receive` and interleaved
  requests are not modelled. One call is a sequential run of the
  application's steps.
- **ddtrace internals.** Span and trace identifiers, timing, the writer and
  the sampler are abstracted away. A span is named by its position, and the
  manual-drop tag is a `dropped` flag.
- **Special tag keys.** `set_tag` converts some keys and numeric values
  specially (into metrics or sampling decisions). Here `set_tags` on static
  tags is a plain map union.
- **Exception details.** The error type, message and stack tags are not
  kept. A span records which exception closed it.
- **External collaborators.** Starlette's `URL` and `Headers`, ddtrace's
  `store_request_headers` / `store_response_headers` and `HTTPPropagator`
  are parameters (`Env`). Their internals are not part of this model.
- **Analytics sample rate.** `get_analytics_sample_rate` is folded into the
  configuration's `analyticsSampleRate` field.
- **Exceptions other than the application's final one.** The model does not
  cover an application that raises partway through, inside a child span, or
  from `send`, nor header helpers or the propagator that raise. The
  application's exception comes after all its steps.
- **Applications that use the tracer freely.** The middleware stamps the
  tracer into the scope (`_middleware.py:59`) so that the application can
  use it, but an application is modelled only as nested
  `with tracer.trace(...)` blocks, each writing only on the span it opens.
  A real application may leave a span open, finish spans out of order,
  write on the request span through `tracer.current_span()`, or activate
  its own context, and `__call__` (`_middleware.py:72-79`) does nothing
  about any of that. So the statements about the application's spans, and
  the exact request-span annotation in
  MiddlewareProperties.FlatRunAnnotates and
  MiddlewareProperties.ResponsesAnnotateRequestSpan, hold for the modelled
  applications only. The middleware's own guarantees do not depend on
  this: the request span is finished exactly once, messages pass through
  unchanged, and the application's exception propagates.
- **Other errors from the URL builder.** `on_http_request` catches only
  `KeyError` (`_backends.py:21-27`). Any other exception raised by
  `URL(scope=...)` would close the request span with it and leave
  `__call__` before the application runs. `Env.url` returns a URL or
  nothing, and nothing stands for `KeyError` only, so this path is not
  modelled.
- **Backend asserts.** The `assert`s in the backend (`_backends.py:19` and
  `:51`) are preconditions of `OnHttpRequest` and `OnHttpResponse`. The
  middleware only reaches them when they hold.
- **Custom backends.** A user subclass of `TraceBackend` may override its
  hooks. Only the default hooks are modelled, with any configuration.
- **Starlette's `CommaSeparatedStrings`.** It is based on `shlex`. Only its
  comma splitting is modelled: runs of commas separate, empty pieces are
  dropped, and each piece is stripped. Quoting, escapes and comments are
  left out, and so are two behaviours of the program that follow from them:
  - `#` starts a comment that cuts the rest of its line away, so
    `"env:prod#eu"` gives `{"env": "prod"}` in the program, while
    `SplitCommas` keeps the piece `"env:prod#eu"` whole;
  - an unbalanced quote, as in `"owner:bob's"`, makes `shlex` raise
    `ValueError`, so `parse_tags_from_string` raises and so does the
    middleware's constructor (`_middleware.py:31-32`). The model returns a
    map for every string, and `Middleware.New` fails only on a `tags`
    argument of the wrong type.
- **The deprecation decorator** on `parse_tags_from_string`. It only emits
  a warning.
- **Status values.** A status is modelled as an integer only; other Python
  values passed to `str` are out of scope.
- Middleware.RunSteps: does not say how the current span's tags change when
  the application has child spans. The exact annotation is proved only for
  applications without child spans, in
  MiddlewareProperties.FlatRunAnnotates and
  MiddlewareProperties.ResponsesAnnotateRequestSpan.

=== FILE: asgi.dfy ===
/** The ASGI data the middleware handles: the connection scope, the messages
    an application sends, and the errors that can leave a call. */
module Asgi {
  import opened Options

  newtype byte = x: int | 0 <= x < 256

  type Bytes = seq<byte>

  /** Span tags and static middleware tags: string keys to string values. */
  type Tags = map<string, string>

  /** One raw header pair, as ASGI carries it. */
  datatype Header = Header(name: Bytes, value: Bytes)

  type Headers = seq<Header>

  /** Identity of a tracer object: the process-wide one or one handed to the
      middleware. */
  datatype TracerRef = TracerRef(id: nat)

  /** An ASGI connection scope. Every key the middleware or the backend reads
      may be missing; `extra` stands for the other keys, which are only
      passed along. `tracer` is the `"ddtrace_asgi.tracer"` key. */
  datatype Scope = Scope(
    kind: Option<string>,
    httpMethod: Option<string>,
    path: Option<string>,
    queryString: Option<Bytes>,
    headers: Option<Headers>,
    tracer: Option<TracerRef>,
    extra: map<string, string>)

  /** A message the application passes to `send`; `kind` is its `"type"` key
      and `extra` stands for the other keys (the body, for instance). */
  datatype Message = Message(
    kind: Option<string>,
    status: Option<int>,
    headers: Option<Headers>,
    extra: map<string, string>)

  /** Exceptions that can leave a call: a missing key, a failed `assert`, or
      whatever the application raises. */
  datatype Error = KeyError(key: string) | AssertionError | AppError(name: string, detail: string)

  const HTTP_SCOPE := "http"
  const RESPONSE_START := "http.response.start"
}

=== FILE: backends.dfy ===
/** `TraceBackend`: what the middleware writes on the request span when a
    request arrives and when the application starts its response. */
module Backends {
  import opened Options
  import opened Strings
  import opened Asgi
  import opened Tracing
  import opened Externals

  const METHOD_TAG := "http.method"
  const URL_TAG := "http.url"
  const QUERY_STRING_TAG := "http.query.string"
  const STATUS_CODE_TAG := "http.status_code"

  /** A backend carries the integration configuration it reads; the default
      backend carries the global `config.asgi`. */
  datatype TraceBackend = TraceBackend(config: IntegrationConfig)

  /** The keys `OnHttpRequest` itself writes on a well-formed request. */
  predicate IsRequestKey(k: string) {
    k == METHOD_TAG || k == URL_TAG || k == QUERY_STRING_TAG
  }

  /** A request the backend cannot describe: the method is missing, or the
      URL cannot be built from the scope. */
  predicate Malformed(env: Env, scope: Scope) {
    scope.httpMethod.None? || env.url(scope).None?
  }

  /** The request headers, an empty list when the scope has none. */
  function RequestHeaders(scope: Scope): Headers {
    scope.headers.GetOr([])
  }

  /** The tags on the span once the request headers are captured, before the
      backend writes its own. */
  function WithRequestHeaders(backend: TraceBackend, env: Env, span: Span, scope: Scope): Tags {
    span.tags + env.requestHeaderTags(RequestHeaders(scope), backend.config)
  }

  /** What `on_http_request` leaves on a well-formed request's span: the
      resource is the method and the path; method and URL tags; the query
      string tag exactly when the configuration asks for it; the analytics
      sample rate; every other tag as the headers left it; nothing else
      changed. */
  ghost predicate RequestAnnotated(backend: TraceBackend, env: Env, span: Span, scope: Scope, r: Span)
    requires !Malformed(env, scope)
  {
    var verb := scope.httpMethod.value;
    var url := env.url(scope).value;
    var base := WithRequestHeaders(backend, env, span, scope);
    && r == span.(resource := r.resource, tags := r.tags, sampleRate := r.sampleRate)
    && r.resource == verb + " " + url.path
    && METHOD_TAG in r.tags && r.tags[METHOD_TAG] == verb
    && URL_TAG in r.tags && r.tags[URL_TAG] == url.text
    && (backend.config.traceQueryString ==> QUERY_STRING_TAG in r.tags && r.tags[QUERY_STRING_TAG] == url.query)
    && (!backend.config.traceQueryString ==>
          (QUERY_STRING_TAG in r.tags <==> QUERY_STRING_TAG in base) &&
          (QUERY_STRING_TAG in base ==> r.tags[QUERY_STRING_TAG] == base[QUERY_STRING_TAG]))
    && (forall k | k in base && !IsRequestKey(k) :: k in r.tags && r.tags[k] == base[k])
    && (forall k | k in r.tags :: k in base || IsRequestKey(k))
    && r.sampleRate == backend.config.analyticsSampleRate
  }

  /** `TraceBackend.on_http_request`, for an HTTP scope. A malformed request
      only marks the span to be dropped. */
  function OnHttpRequest(backend: TraceBackend, env: Env, span: Span, scope: Scope): (r: Span)
    requires scope.kind == Some(HTTP_SCOPE)
    ensures Malformed(env, scope) ==> r == span.(dropped := true)
    ensures !Malformed(env, scope) ==> RequestAnnotated(backend, env, span, scope, r)
  {
    if Malformed(env, scope) then span.(dropped := true)
    else
      var verb := scope.httpMethod.value;
      var url := env.url(scope).value;
      var tags := WithRequestHeaders(backend, env, span, scope)[METHOD_TAG := verb][URL_TAG := url.text];
      var tags := if backend.config.traceQueryString then tags[QUERY_STRING_TAG := url.query] else tags;
      span.(resource := verb + " " + url.path, tags := tags, sampleRate := backend.config.analyticsSampleRate)
  }

  /** The tags `store_response_headers` writes for the message's headers, if
      it carries any. */
  function ResponseHeaderTags(backend: TraceBackend, env: Env, message: Message): Tags {
    if message.headers.Some? then env.responseHeaderTags(message.headers.value, backend.config) else map[]
  }

  /** `TraceBackend.on_http_response`, for a response-start message: the
      status code as a decimal string, then the response header tags. Only
      tags change, and a message with neither status nor headers changes
      nothing. */
  function OnHttpResponse(backend: TraceBackend, env: Env, span: Span, scope: Scope, message: Message): (r: Span)
    requires message.kind == Some(RESPONSE_START)
    ensures r == span.(tags := r.tags)
    ensures var headerTags := ResponseHeaderTags(backend, env, message);
      && (forall k | k in headerTags :: k in r.tags && r.tags[k] == headerTags[k])
      && (message.status.Some? && STATUS_CODE_TAG !in headerTags ==>
            STATUS_CODE_TAG in r.tags && r.tags[STATUS_CODE_TAG] == DecimalString(message.status.value))
      && (forall k | k in r.tags :: k in span.tags || k in headerTags || (k == STATUS_CODE_TAG && message.status.Some?))
      && (forall k | k in span.tags && k !in headerTags && !(k == STATUS_CODE_TAG && message.status.Some?) ::
            k in r.tags && r.tags[k] == span.tags[k])
    ensures message.status.None? && message.headers.None? ==> r == span
  {
    var tags := if message.status.Some? then span.tags[STATUS_CODE_TAG := DecimalString(message.status.value)] else span.tags;
    var tags := if message.headers.Some? then tags + ResponseHeaderTags(backend, env, message) else tags;
    span.(tags := tags)
  }

  /** The status tag reads back as the status the application sent. */
  lemma StatusTagReadsBack(backend: TraceBackend, env: Env, span: Span, scope: Scope, message: Message)
    requires message.kind == Some(RESPONSE_START) && message.status.Some?
    requires STATUS_CODE_TAG !in ResponseHeaderTags(backend, env, message)
    ensures var r := OnHttpResponse(backend, env, span, scope, message);
      STATUS_CODE_TAG in r.tags && ParseDecimal(r.tags[STATUS_CODE_TAG]) == Some(message.status.value)
  {
    DecimalRoundTrip(message.status.value);
  }

  /** The query string is recorded exactly when the configuration asks for it
      (headers that never produce that tag assumed). */
  lemma QueryStringIffConfigured(backend: TraceBackend, env: Env, span: Span, scope: Scope)
    requires scope.kind == Some(HTTP_SCOPE) && !Malformed(env, scope)
    requires QUERY_STRING_TAG !in WithRequestHeaders(backend, env, span, scope)
    ensures QUERY_STRING_TAG in OnHttpRequest(backend, env, span, scope).tags <==> backend.config.traceQueryString
    ensures backend.config.traceQueryString ==>
      OnHttpRequest(backend, env, span, scope).tags[QUERY_STRING_TAG] == env.url(scope).value.query
  {
  }

  /** A scope without `headers` is read as one with no headers, not as an
      error: the header capture sees the empty list. */
  lemma MissingRequestHeadersAreEmpty(backend: TraceBackend, env: Env, span: Span, scope: Scope)
    requires scope.kind == Some(HTTP_SCOPE) && scope.headers.None? && !Malformed(env, scope)
    ensures var r := OnHttpRequest(backend, env, span, scope);
      var base := span.tags + env.requestHeaderTags([], backend.config);
      && r.dropped == span.dropped
      && forall k | k in base && !IsRequestKey(k) :: k in r.tags && r.tags[k] == base[k]
  {
    assert RequestHeaders(scope) == [];
  }

  /** A scope without `path` or `headers` (for a URL builder that needs both)
      or without `method` gets a dropped span and no other annotation. */
  lemma InvalidRequestOnlyDropped(backend: TraceBackend, env: Env, span: Span, scope: Scope)
    requires scope.kind == Some(HTTP_SCOPE) && UrlNeedsPathAndHeaders(env)
    requires scope.httpMethod.None? || scope.path.None? || scope.headers.None?
    ensures OnHttpRequest(backend, env, span, scope) == span.(dropped := true)
  {
    assert Malformed(env, scope);
  }
}

=== FILE: deprecated_tags.dfy ===
/** The deprecated string front end of `_deprecated/utils.py`: a
    comma-separated string is cut into tokens, each token is stripped of
    surrounding whitespace, and the tokens go through the list parser. */
module DeprecatedTags {
  import opened Strings
  import opened Asgi
  import opened TagParsing

  /** The pieces of `s` between commas, as Starlette's `CommaSeparatedStrings`
      cuts them: a run of commas separates like a single one and empty pieces
      are dropped, so `""` has no pieces at all. */
  function SplitCommas(s: string): seq<string>
    decreases |s|
  {
    if |s| == 0 then []
    else if s[0] == ',' then SplitCommas(s[1..])
    else
      var (piece, _, rest) := Partition(s, ',');
      [piece] + SplitCommas(rest)
  }

  /** Every piece is non-empty and free of commas. */
  lemma {:induction false} SplitCommasPieces(s: string)
    ensures forall i | 0 <= i < |SplitCommas(s)| ::
              SplitCommas(s)[i] != [] && ',' !in SplitCommas(s)[i]
    decreases |s|
  {
    if |s| > 0 {
      if s[0] == ',' {
        SplitCommasPieces(s[1..]);
      } else {
        var (piece, _, rest) := Partition(s, ',');
        SplitCommasPieces(rest);
        assert piece[0] == s[0];
      }
    }
  }

  /** The pieces written back with a comma between each pair. */
  function Join(pieces: seq<string>, sep: string): string {
    if |pieces| == 0 then ""
    else if |pieces| == 1 then pieces[0]
    else pieces[0] + sep + Join(pieces[1..], sep)
  }

  predicate IsPiece(piece: string) {
    piece != [] && ',' !in piece
  }

  /** Splitting undoes joining with commas, for non-empty comma-free pieces. */
  lemma {:induction false} SplitJoinRoundTrip(pieces: seq<string>)
    requires forall i | 0 <= i < |pieces| :: IsPiece(pieces[i])
    ensures SplitCommas(Join(pieces, ",")) == pieces
  {
    if |pieces| == 1 {
      assert Join(pieces, ",") == pieces[0];
    } else if |pieces| > 1 {
      var rest := Join(pieces[1..], ",");
      var s := Join(pieces, ",");
      assert s == pieces[0] + [','] + rest;
      assert s[0] == pieces[0][0];
      PartitionUnique(s, ',', pieces[0], rest);
      SplitJoinRoundTrip(pieces[1..]);
      assert pieces == [pieces[0]] + pieces[1..];
    }
  }

  /** Every piece stripped of surrounding whitespace. */
  function StripAll(pieces: seq<string>): (stripped: seq<string>)
    ensures |stripped| == |pieces|
    ensures forall i | 0 <= i < |pieces| :: stripped[i] == Strip(pieces[i])
  {
    seq(|pieces|, i requires 0 <= i < |pieces| => Strip(pieces[i]))
  }

  /** `CommaSeparatedStrings(value)` as a list of tokens. */
  function CommaSeparatedStrings(value: string): seq<string> {
    StripAll(SplitCommas(value))
  }

  /** `parse_tags_from_string`: the keys are exactly the first-colon names of
      the stripped comma-separated pieces, and each holds the value of the
      last piece with that name. */
  function ParseTagsFromString(value: string): (parsed: Tags)
    ensures KeysAreNames(parsed, CommaSeparatedStrings(value))
    ensures LastValuesWin(parsed, CommaSeparatedStrings(value))
  {
    ParseTagsFromList(CommaSeparatedStrings(value))
  }

  /** The string parser is the list parser applied to the comma-separated
      pieces with their surrounding whitespace removed, so every first-colon
      and last-wins property of the list parser carries over. */
  lemma StringParseIsListParse(pieces: seq<string>)
    requires forall i | 0 <= i < |pieces| :: IsPiece(pieces[i])
    ensures ParseTagsFromString(Join(pieces, ",")) == ParseTagsFromList(StripAll(pieces))
  {
    SplitJoinRoundTrip(pieces);
  }

  /** Whitespace around a token does not reach the parsed map. */
  lemma PaddingIgnored(pieces: seq<string>, tokens: seq<string>)
    requires |pieces| == |tokens|
    requires forall i | 0 <= i < |pieces| :: IsPiece(pieces[i])
    requires forall i | 0 <= i < |pieces| ::
               exists lead, trail | AllSpace(lead) && AllSpace(trail) ::
                 pieces[i] == lead + tokens[i] + trail
    requires forall i | 0 <= i < |tokens| :: IsTrimmed(tokens[i])
    ensures ParseTagsFromString(Join(pieces, ",")) == ParseTagsFromList(tokens)
  {
    SplitJoinRoundTrip(pieces);
    forall i | 0 <= i < |pieces| ensures Strip(pieces[i]) == tokens[i] {
      var lead, trail :| AllSpace(lead) && AllSpace(trail) && pieces[i] == lead + tokens[i] + trail;
      StripPadded(lead, tokens[i], trail);
    }
    assert StripAll(pieces) == tokens;
  }

  /** The empty string has no tokens and yields the empty map. */
  lemma EmptyStringExample()
    ensures ParseTagsFromString("") == map[]
  {
  }

  /** Text without whitespace at its ends is left alone by stripping. */
  lemma TrimmedStrips(token: string)
    requires IsTrimmed(token)
    ensures Strip(token) == token
  {
    StripPadded("", token, "");
    assert "" + token + "" == token;
  }

  /** A lone trimmed `name:value` token parses to that single entry. */
  lemma SingleToken(token: string, name: string, value: string)
    requires token == name + ":" + value && ':' !in name
    requires ',' !in token && IsTrimmed(token)
    ensures ParseTagsFromString(token) == map[name := value]
  {
    assert Join([token], ",") == token;
    SplitJoinRoundTrip([token]);
    TrimmedStrips(token);
    assert StripAll([token]) == [token];
    SplitAtFirstColon(name, value);
  }

  /** Two comma-separated tokens, each possibly padded with whitespace,
      parse to two entries, the second winning if the names coincide. */
  lemma TwoTokens(first: string, second: string, name1: string, value1: string,
                  name2: string, value2: string)
    requires IsPiece(first) && IsPiece(second)
    requires Strip(first) == name1 + ":" + value1 && ':' !in name1
    requires Strip(second) == name2 + ":" + value2 && ':' !in name2
    ensures ParseTagsFromString(first + "," + second)
         == map[name1 := value1][name2 := value2]
  {
    var pieces := [first, second];
    JoinTwo(first, second);
    StringParseIsListParse(pieces);
    StripAllTwo(first, second);
    TwoEntries(Strip(first), Strip(second), name1, value1, name2, value2);
  }

  lemma JoinTwo(first: string, second: string)
    ensures Join([first, second], ",") == first + "," + second
  {
    assert [first, second][1..] == [second];
  }

  lemma StripAllTwo(first: string, second: string)
    ensures StripAll([first, second]) == [Strip(first), Strip(second)]
  {
  }

  lemma TwoEntries(first: string, second: string, name1: string, value1: string,
                   name2: string, value2: string)
    requires first == name1 + ":" + value1 && ':' !in name1
    requires second == name2 + ":" + value2 && ':' !in name2
    ensures ParseTagsFromList([first, second]) == map[name1 := value1][name2 := value2]
  {
    SplitAtFirstColon(name1, value1);
    ParseSnoc([first], second);
    assert [first] + [second] == [first, second];
    PartitionUnique(second, ':', name2, value2);
  }

  /** `"env:testing"` gives `{"env": "testing"}`. */
  lemma SingleTokenExample()
    ensures ParseTagsFromString("env:testing") == map["env" := "testing"]
  {
    SingleToken("env:testing", "env", "testing");
  }

  /** Two `name:value` tokens joined by a comma, the second preceded by
      whitespace, give two entries, the second winning if the names
      coincide: `"env:testing, live:false"` gives
      `{"env": "testing", "live": "false"}`. */
  lemma PaddedTokens(name1: string, value1: string, pad: string, name2: string, value2: string)
    requires ':' !in name1 && ':' !in name2
    requires ',' !in name1 && ',' !in value1 && ',' !in name2 && ',' !in value2
    requires IsTrimmed(name1 + ":" + value1) && IsTrimmed(name2 + ":" + value2) && AllSpace(pad)
    ensures ParseTagsFromString((name1 + ":" + value1) + "," + (pad + (name2 + ":" + value2)))
         == map[name1 := value1][name2 := value2]
  {
    var first := name1 + ":" + value1;
    var token := name2 + ":" + value2;
    var second := pad + token;
    assert ',' !in second by {
      assert forall i | 0 <= i < |pad| :: IsSpace(pad[i]);
    }
    TrimmedStrips(first);
    StripPadded(pad, token, "");
    assert pad + token + "" == second;
    TwoTokens(first, second, name1, value1, name2, value2);
  }

  /** Round trip through the string form: writing a map as comma-joined
      `name:value` tokens and parsing gives the map back, when no name or
      value holds a comma, no name holds a colon, and the text at the ends of
      each token is not whitespace. */
  lemma StringRoundTrip(m: Tags)
    requires forall k | k in m :: ':' !in k && ',' !in k && ',' !in m[k]
    requires forall k | k in m :: (k == [] || !IsSpace(k[0])) && (m[k] == [] || !IsSpace(m[k][|m[k]| - 1]))
    ensures ParseTagsFromString(Join(RenderTags(MapEntries(m)), ",")) == m
  {
    var entries := MapEntries(m);
    var tokens := RenderTags(entries);
    forall i | 0 <= i < |tokens| ensures IsPiece(tokens[i]) && Strip(tokens[i]) == tokens[i] {
      RenderedEntryIsTrimmedPiece(m, entries[i].0);
      assert tokens[i] == RenderTag((entries[i].0, m[entries[i].0]));
    }
    StringParseIsListParse(tokens);
    assert StripAll(tokens) == tokens;
    RenderParseRoundTrip(m);
  }

  lemma RenderedEntryIsTrimmedPiece(m: Tags, k: string)
    requires k in m && ':' !in k && ',' !in k && ',' !in m[k]
    requires (k == [] || !IsSpace(k[0])) && (m[k] == [] || !IsSpace(m[k][|m[k]| - 1]))
    ensures IsPiece(RenderTag((k, m[k]))) && Strip(RenderTag((k, m[k]))) == RenderTag((k, m[k]))
  {
    var v := m[k];
    var token := k + [':'] + v;
    assert RenderTag((k, v)) == token;
    forall i | 0 <= i < |token| ensures token[i] != ',' {
      if i < |k| {
        assert token[i] == k[i];
      } else if i > |k| {
        assert token[i] == v[i - |k| - 1];
      }
    }
    assert token[0] == if k == [] then ':' else k[0];
    assert token[|token| - 1] == if v == [] then ':' else v[|v| - 1];
    TrimmedStrips(token);
  }
}

=== FILE: externals.dfy ===
/** Collaborators outside the core, taken as parameters: Starlette's URL
    builder, ddtrace's header-capture helpers and its HTTP propagator, and
    the integration configuration they read. */
module Externals {
  import opened Options
  import opened Asgi
  import opened Tracing

  /** ddtrace's `config.asgi`: whether to record the query string, the
      analytics sample rate, and the header allow-list the capture helpers
      read. */
  datatype IntegrationConfig = IntegrationConfig(
    traceQueryString: bool,
    analyticsSampleRate: Option<real>,
    headerAllowList: set<string>)

  /** What the backend reads from a built URL: its path, its query string and
      its rendering `str(url)`. */
  datatype Url = Url(path: string, query: string, text: string)

  /** `url` is `URL(scope=scope)`, with `None` where it raises `KeyError`;
      the two header functions are the tags `store_request_headers` and
      `store_response_headers` write; `extract` is `HTTPPropagator().extract`. */
  datatype Env = Env(
    url: Scope -> Option<Url>,
    requestHeaderTags: (Headers, IntegrationConfig) -> Tags,
    responseHeaderTags: (Headers, IntegrationConfig) -> Tags,
    extract: Headers -> DistContext)

  /** A URL builder that, like Starlette's, needs the scope's `path` and
      `headers` keys. */
  ghost predicate UrlNeedsPathAndHeaders(env: Env) {
    forall scope: Scope :: (scope.path.None? || scope.headers.None?) ==> env.url(scope).None?
  }
}

=== FILE: middleware.dfy ===
/** `TraceMiddleware`: the constructor's argument handling, the `send`
    interceptor, and one call of the middleware on a connection. The wrapped
    application is modelled by what it does: the messages it sends, the
    child spans it opens around some of them, and the exception it ends
    with, if any. */
module Middleware {
  import opened Options
  import opened Asgi
  import opened TagParsing
  import opened DeprecatedTags
  import opened Tracing
  import opened Externals
  import opened Backends

  const REQUEST_SPAN_NAME := "asgi.request"
  const DEFAULT_SERVICE := "asgi"
  const HTTP_SPAN_TYPE := "http"

  /** One step of the application: send a message, or open a child span
      (name, resource, tags), run `body` inside it, and finish it. */
  datatype AppStep =
    | Send(message: Message)
    | ChildSpan(name: string, resource: Option<string>, tags: Tags, body: seq<AppStep>)

  /** The application: its steps, then the exception it raises, if any. */
  datatype App = App(steps: seq<AppStep>, raises: Option<Error>)

  /** The `tags` argument: omitted, a string, a list of strings, a dict, or
      anything else. */
  datatype TagsArg =
    | TagsOmitted
    | TagString(text: string)
    | TagList(items: seq<string>)
    | TagDict(entries: Tags)
    | TagsOfOtherType

  datatype TraceMiddleware = TraceMiddleware(
    app: App,
    tracer: TracerRef,
    service: string,
    tags: Tags,
    distributedTracing: bool,
    backend: TraceBackend)

  /** The static tags the constructor keeps: `None` becomes an empty list,
      a string goes to the string parser, a list to the list parser. */
  function StaticTags(arg: TagsArg): Option<Tags> {
    match arg
    case TagsOmitted => Some(ParseTagsFromList([]))
    case TagString(text) => Some(ParseTagsFromString(text))
    case TagList(items) => Some(ParseTagsFromList(items))
    case TagDict(entries) => Some(entries)
    case TagsOfOtherType => None
  }

  /** `TraceMiddleware.__init__`. Omitted arguments take their defaults: the
      global tracer, service `"asgi"`, distributed tracing on, and a backend
      reading the global configuration. Tags that are neither a string, a
      list nor a dict fail the `isinstance` assertion. */
  function New(app: App, globalTracer: TracerRef, globalConfig: IntegrationConfig,
               tracer: Option<TracerRef>, service: Option<string>, tags: TagsArg,
               distributedTracing: Option<bool>, backend: Option<TraceBackend>): (r: Result<TraceMiddleware, Error>)
    ensures r.Failure? <==> tags.TagsOfOtherType?
    ensures r.Failure? ==> r.error == AssertionError
    ensures r.Success? ==>
      && r.value.app == app
      && r.value.tracer == tracer.GetOr(globalTracer)
      && r.value.service == service.GetOr(DEFAULT_SERVICE)
      && r.value.distributedTracing == distributedTracing.GetOr(true)
      && r.value.backend == backend.GetOr(TraceBackend(globalConfig))
      && (tags.TagDict? ==> r.value.tags == tags.entries)
      && (tags.TagsOmitted? ==> r.value.tags == map[])
      && (tags.TagList? ==> r.value.tags == ParseTagsFromList(tags.items))
      && (tags.TagString? ==> r.value.tags == ParseTagsFromString(tags.text))
  {
    match StaticTags(tags)
    case None => Failure(AssertionError)
    case Some(parsed) =>
      Success(TraceMiddleware(app, tracer.GetOr(globalTracer), service.GetOr(DEFAULT_SERVICE), parsed,
                              distributedTracing.GetOr(true), backend.GetOr(TraceBackend(globalConfig))))
  }

  /** `send_with_tracing`: the message goes on unchanged; a response start
      annotates the current span through the backend, when there is one. */
  function SendWithTracing(mw: TraceMiddleware, env: Env, t: Tracer, scope: Scope, message: Message): (r: (Tracer, Message))
    requires Valid(t)
    ensures r.1 == message
    ensures Valid(r.0) && r.0.current == t.current && r.0.context == t.context
    ensures t.current.None? || message.kind != Some(RESPONSE_START) ==> r.0 == t
    ensures t.current.Some? && message.kind == Some(RESPONSE_START) ==>
      var c := t.current.value;
      r.0.spans == t.spans[c := t.spans[c].(span := OnHttpResponse(mw.backend, env, t.spans[c].span, scope, message))]
  {
    if t.current.Some? && message.kind == Some(RESPONSE_START) then
      var c := t.current.value;
      (SetSpan(t, c, OnHttpResponse(mw.backend, env, t.spans[c].span, scope, message)), message)
    else (t, message)
  }

  /** How the application's `send` reaches the server: directly, or through
      `SendWithTracing` bound to a middleware and the request scope. */
  datatype Hook = Untraced | Traced(middleware: TraceMiddleware, env: Env, scope: Scope)

  function Deliver(hook: Hook, t: Tracer, message: Message): (r: (Tracer, Message))
    requires Valid(t)
    ensures r.1 == message
    ensures RunKeeps(t, r.0, 0, hook.Untraced?)
  {
    match hook
    case Untraced => (t, message)
    case Traced(mw, env, scope) => SendWithTracing(mw, env, t, scope, message)
  }

  /** Every message the steps send, in order, including those inside child
      spans. */
  function Messages(steps: seq<AppStep>): seq<Message>
  {
    if |steps| == 0 then []
    else
      match steps[0]
      case Send(message) => [message] + Messages(steps[1..])
      case ChildSpan(_, _, _, body) => Messages(body) + Messages(steps[1..])
  }

  /** How many child spans the steps open, nested ones included. */
  function ChildCount(steps: seq<AppStep>): nat
  {
    if |steps| == 0 then 0 else StepChildCount(steps[0]) + ChildCount(steps[1..])
  }

  function StepChildCount(step: AppStep): nat
  {
    match step
    case Send(_) => 0
    case ChildSpan(_, _, _, body) => 1 + ChildCount(body)
  }

  /** The invariants one run of steps keeps on the tracer: spans that existed
      keep everything but their tags, and only the current one may gain
      tags; each new span is finished exactly once and hangs below
      the current span or below another new span; the current span and the
      active context are restored. */
  ghost predicate RunKeeps(t: Tracer, r: Tracer, children: nat, untraced: bool) {
    && Valid(r)
    && r.current == t.current && r.context == t.context
    && |r.spans| == |t.spans| + children
    && (forall i | 0 <= i < |t.spans| :: r.spans[i] == t.spans[i].(span := t.spans[i].span.(tags := r.spans[i].span.tags)))
    && (forall i | 0 <= i < |t.spans| && Some(i) != t.current :: r.spans[i] == t.spans[i])
    && (untraced ==> forall i | 0 <= i < |t.spans| :: r.spans[i] == t.spans[i])
    && (forall i | |t.spans| <= i < |r.spans| :: r.spans[i].finishes == 1)
    && (forall i | |t.spans| <= i < |r.spans| ::
          r.spans[i].parent == ParentFor(t) || (r.spans[i].parent.Local? && |t.spans| <= r.spans[i].parent.index))
  }

  /** Two runs one after the other keep the invariants of one run. */
  lemma KeepsCompose(t: Tracer, m: Tracer, r: Tracer, first: nat, second: nat, untraced: bool)
    requires RunKeeps(t, m, first, untraced) && RunKeeps(m, r, second, untraced)
    ensures RunKeeps(t, r, first + second, untraced)
  {
    assert ParentFor(m) == ParentFor(t);
  }

  /** Runs the application's steps, every `send` going through `hook`.
      Returns the tracer afterwards and the messages that reached the
      server. */
  function RunSteps(steps: seq<AppStep>, t: Tracer, hook: Hook): (r: (Tracer, seq<Message>))
    requires Valid(t)
    ensures r.1 == Messages(steps)
    ensures RunKeeps(t, r.0, ChildCount(steps), hook.Untraced?)
    decreases steps
  {
    if |steps| == 0 then (t, [])
    else
      var (t1, first) :=
        match steps[0]
        case Send(message) =>
          var (t1, delivered) := Deliver(hook, t, message);
          (t1, [delivered])
        case ChildSpan(_, _, _, _) => RunChild(steps[0], t, hook);
      var (t2, rest) := RunSteps(steps[1..], t1, hook);
      KeepsCompose(t, t1, t2, StepChildCount(steps[0]), ChildCount(steps[1..]), hook.Untraced?);
      (t2, first + rest)
  }

  /** A child span: started below the current span with the step's resource
      and tags, current while its body runs, then finished. */
  function RunChild(step: AppStep, t: Tracer, hook: Hook): (r: (Tracer, seq<Message>))
    requires Valid(t) && step.ChildSpan?
    ensures r.1 == Messages(step.body)
    ensures RunKeeps(t, r.0, 1 + ChildCount(step.body), hook.Untraced?)
    decreases step
  {
    var i := |t.spans|;
    var started := StartSpan(t, step.name, None, None, step.resource);
    var tagged := SetSpan(started, i, started.spans[i].span.(tags := step.tags));
    var (inside, sent) := RunSteps(step.body, tagged, hook);
    ChildKeeps(t, tagged, inside, ChildCount(step.body), hook.Untraced?);
    (FinishSpan(inside, i), sent)
  }

  /** Finishing a child span opened on `t` (now `tagged`) after its body ran
      restores what one run must keep. */
  lemma ChildKeeps(t: Tracer, tagged: Tracer, inside: Tracer, children: nat, untraced: bool)
    requires Valid(t) && Valid(tagged)
    requires |tagged.spans| == |t.spans| + 1 && tagged.spans[..|t.spans|] == t.spans
    requires tagged.current == Some(|t.spans|) && tagged.context == t.context
    requires tagged.spans[|t.spans|].parent == ParentFor(t) && tagged.spans[|t.spans|].finishes == 0
    requires RunKeeps(tagged, inside, children, untraced)
    ensures RunKeeps(t, FinishSpan(inside, |t.spans|), 1 + children, untraced)
  {
    var i := |t.spans|;
    assert ParentFor(tagged) == Local(i);
    assert forall j | 0 <= j < i :: inside.spans[j] == tagged.spans[j] == t.spans[j];
  }

  /** The distributed context a call activates: there must be headers in the
      scope, distributed tracing on, and a non-zero extracted trace id (a
      helper of `Call`; the property is stated about the call itself). */
  function DistributedContext(mw: TraceMiddleware, env: Env, scope: Scope): Option<DistContext> {
    if scope.headers.Some? && mw.distributedTracing && env.extract(scope.headers.value).traceId != 0
    then Some(env.extract(scope.headers.value))
    else None
  }

  /** The request span before any annotation: named `"asgi.request"`, with
      the middleware's service, span type `"http"`, resource defaulting to
      the name, and the static tags. */
  function FreshRequestSpan(mw: TraceMiddleware): Span {
    Span(REQUEST_SPAN_NAME, Some(mw.service), Some(HTTP_SPAN_TYPE), REQUEST_SPAN_NAME, mw.tags, None, false, None)
  }

  /** Activates the distributed context if there is one, opens the request
      span, writes the static tags and then lets the backend annotate it.
      The new span is current, unfinished, and a child of the remote span
      when a context was activated. */
  function OpenRequestSpan(mw: TraceMiddleware, env: Env, scope: Scope, t: Tracer): (r: Tracer)
    requires Valid(t) && scope.kind == Some(HTTP_SCOPE)
    ensures Valid(r) && |r.spans| == |t.spans| + 1 && r.spans[..|t.spans|] == t.spans
    ensures r.current == Some(|t.spans|)
    ensures var context := DistributedContext(mw, env, scope);
      && r.context == (if context.Some? then context else t.context)
      && r.spans[|t.spans|].parent == (if context.Some? then Remote(context.value) else ParentFor(t))
    ensures r.spans[|t.spans|].finishes == 0
    ensures r.spans[|t.spans|].span == OnHttpRequest(mw.backend, env, FreshRequestSpan(mw), scope)
  {
    var activated := match DistributedContext(mw, env, scope)
      case Some(context) => Activate(t, context)
      case None => t;
    var i := |t.spans|;
    var started := StartSpan(activated, REQUEST_SPAN_NAME, Some(mw.service), Some(HTTP_SPAN_TYPE), None);
    var span := started.spans[i].span;
    assert span.tags + mw.tags == mw.tags;
    SetSpan(started, i, OnHttpRequest(mw.backend, env, span.(tags := span.tags + mw.tags), scope))
  }

  /** Leaving the `with` block: an exception is recorded on the span, which
      is then finished. */
  function CloseRequestSpan(t: Tracer, i: nat, raised: Option<Error>): (r: Tracer)
    requires Valid(t) && i < |t.spans|
    ensures Valid(r) && r.context == t.context && |r.spans| == |t.spans|
    ensures r.spans[i] == t.spans[i].(span := t.spans[i].span.(error := if raised.Some? then raised else t.spans[i].span.error),
                                      finishes := t.spans[i].finishes + 1)
    ensures forall j | 0 <= j < |t.spans| && j != i :: r.spans[j] == t.spans[j]
    ensures r.current == if t.spans[i].parent.Local? then Some(t.spans[i].parent.index) else None
  {
    var marked := if raised.Some? then SetSpan(t, i, t.spans[i].span.(error := raised)) else t;
    FinishSpan(marked, i)
  }

  /** Which `send` the application was given. */
  datatype SendChannel = ServerSend | TracedSend

  datatype AppCall = AppCall(scope: Scope, send: SendChannel)

  datatype Outcome = Returned | Raised(error: Error)

  /** The scope as stamped and handed to the application, the application's invocations, the tracer
      afterwards, the messages that reached the server, and how the call
      ended. */
  datatype CallResult = CallResult(scope: Scope, appCalls: seq<AppCall>, tracer: Tracer, sent: seq<Message>, outcome: Outcome)

  function AppOutcome(app: App): Outcome {
    if app.raises.Some? then Raised(app.raises.value) else Returned
  }

  /** `TraceMiddleware.__call__`. The tracer is always stored in the scope.
      A scope without a type raises `KeyError` before the application runs;
      any scope type other than HTTP runs the application once with the
      server's `send`; an HTTP scope runs it once inside the request span
      with the tracing `send`. Every message reaches the server unchanged and
      in order, and the application's exception, if any, leaves the call. */
  function Call(mw: TraceMiddleware, env: Env, scope: Scope, t: Tracer): (r: CallResult)
    requires Valid(t)
    ensures Valid(r.tracer)
    ensures r.scope == scope.(tracer := Some(mw.tracer))
    ensures scope.kind.None? ==>
      r.appCalls == [] && r.sent == [] && r.tracer == t && r.outcome == Raised(KeyError("type"))
    ensures scope.kind.Some? ==>
      && r.appCalls == [AppCall(r.scope, if scope.kind == Some(HTTP_SCOPE) then TracedSend else ServerSend)]
      && r.sent == Messages(mw.app.steps)
      && r.outcome == AppOutcome(mw.app)
  {
    var stamped := scope.(tracer := Some(mw.tracer));
    if stamped.kind.None? then
      CallResult(stamped, [], t, [], Raised(KeyError("type")))
    else if stamped.kind != Some(HTTP_SCOPE) then
      var (after, sent) := RunSteps(mw.app.steps, t, Untraced);
      CallResult(stamped, [AppCall(stamped, ServerSend)], after, sent, AppOutcome(mw.app))
    else
      var i := |t.spans|;
      var inSpan := OpenRequestSpan(mw, env, stamped, t);
      var (after, sent) := RunSteps(mw.app.steps, inSpan, Traced(mw, env, stamped));
      CallResult(stamped, [AppCall(stamped, TracedSend)], CloseRequestSpan(after, i, mw.app.raises),
                 sent, AppOutcome(mw.app))
  }
}

=== FILE: middleware_properties.dfy ===
/** Properties of one middleware call, relating `Call` to the tracer state
    before and after it. */
module MiddlewareProperties {
  import opened Options
  import opened Asgi
  import opened DeprecatedTags
  import opened Tracing
  import opened Externals
  import opened Backends
  import opened Middleware

  /** An HTTP call opens exactly one request span, named `"asgi.request"`,
      with the middleware's service and span type `"http"`, and finishes it
      exactly once; the exception the application raised is recorded on it.
      Every span the application opens hangs below it and is finished once,
      spans that existed before are untouched, and the current span is the
      one from before the call (none once a distributed context was
      activated). */
  lemma RequestSpanLifecycle(mw: TraceMiddleware, env: Env, scope: Scope, t: Tracer)
    requires Valid(t) && scope.kind == Some(HTTP_SCOPE)
    ensures var r := Call(mw, env, scope, t);
      var i := |t.spans|;
      && |r.tracer.spans| == i + 1 + ChildCount(mw.app.steps)
      && r.tracer.spans[..i] == t.spans
      && r.tracer.spans[i].finishes == 1
      && r.tracer.spans[i].span.name == REQUEST_SPAN_NAME
      && r.tracer.spans[i].span.service == Some(mw.service)
      && r.tracer.spans[i].span.spanType == Some(HTTP_SPAN_TYPE)
      && r.tracer.spans[i].span.error == mw.app.raises
      && (forall j | i < j < |r.tracer.spans| ::
            r.tracer.spans[j].finishes == 1 &&
            r.tracer.spans[j].parent.Local? && i <= r.tracer.spans[j].parent.index < j)
      && r.tracer.current == (if DistributedContext(mw, env, r.scope).Some? then None else t.current)
  {
    var stamped := scope.(tracer := Some(mw.tracer));
    var i := |t.spans|;
    var inSpan := OpenRequestSpan(mw, env, stamped, t);
    var after := RunSteps(mw.app.steps, inSpan, Traced(mw, env, stamped)).0;
    RequestSpanUnannotated(mw.backend, env, FreshRequestSpan(mw), stamped);
    ClosedAfterRun(t, inSpan, after, ChildCount(mw.app.steps), mw.app.raises);
  }

  /** The request span's part of the lifecycle, for any run between opening
      and closing it. */
  lemma ClosedAfterRun(t: Tracer, inSpan: Tracer, after: Tracer, children: nat, raised: Option<Error>)
    requires Valid(t) && Valid(inSpan)
    requires |inSpan.spans| == |t.spans| + 1 && inSpan.spans[..|t.spans|] == t.spans
    requires inSpan.current == Some(|t.spans|) && inSpan.spans[|t.spans|].finishes == 0
    requires inSpan.spans[|t.spans|].span.error.None?
    requires RunKeeps(inSpan, after, children, false)
    ensures var r := CloseRequestSpan(after, |t.spans|, raised);
      var i := |t.spans|;
      && |r.spans| == i + 1 + children
      && r.spans[..i] == t.spans
      && r.spans[i] == inSpan.spans[i].(span := r.spans[i].span, finishes := 1)
      && r.spans[i].span == inSpan.spans[i].span.(tags := r.spans[i].span.tags, error := raised)
      && (forall j | i < j < |r.spans| :: r.spans[j].finishes == 1 && r.spans[j].parent.Local? && i <= r.spans[j].parent.index < j)
      && r.current == if inSpan.spans[i].parent.Local? then Some(inSpan.spans[i].parent.index) else None
  {
    var i := |t.spans|;
    assert ParentFor(inSpan) == Local(i);
    assert forall j | 0 <= j < i :: after.spans[j] == inSpan.spans[j];
  }

  /** What `on_http_request` writes never touches the span's name, service,
      type or error. */
  lemma RequestSpanUnannotated(backend: TraceBackend, env: Env, span: Span, scope: Scope)
    requires scope.kind == Some(HTTP_SCOPE)
    ensures var r := OnHttpRequest(backend, env, span, scope);
      r.name == span.name && r.service == span.service && r.spanType == span.spanType && r.error == span.error
  {
  }

  /** A scope of another type (`"lifespan"`, `"websocket"`) passes straight
      through: the application gets the server's `send`, the middleware
      opens no span and writes on none, and an application that opens no
      spans leaves the tracer exactly as it was. */
  lemma NonHttpPassThrough(mw: TraceMiddleware, env: Env, scope: Scope, t: Tracer)
    requires Valid(t) && scope.kind.Some? && scope.kind != Some(HTTP_SCOPE)
    ensures var r := Call(mw, env, scope, t);
      && r.appCalls == [AppCall(r.scope, ServerSend)]
      && |r.tracer.spans| == |t.spans| + ChildCount(mw.app.steps)
      && r.tracer.spans[..|t.spans|] == t.spans
      && r.tracer.current == t.current && r.tracer.context == t.context
      && (ChildCount(mw.app.steps) == 0 ==> r.tracer == t)
  {
    var r := Call(mw, env, scope, t);
    assert r.tracer.spans[..|t.spans|] == t.spans;
  }

  /** With headers in the scope and distributed tracing on, a non-zero
      extracted trace id is activated and the request span becomes a child
      of the remote span; otherwise the active context is left alone and the
      request span is a child of whatever was current. */
  lemma DistributedContextActivation(mw: TraceMiddleware, env: Env, scope: Scope, t: Tracer)
    requires Valid(t) && scope.kind == Some(HTTP_SCOPE)
    ensures var r := Call(mw, env, scope, t);
      var activated := scope.headers.Some? && mw.distributedTracing && env.extract(scope.headers.value).traceId != 0;
      && (activated ==>
            r.tracer.context == Some(env.extract(scope.headers.value)) &&
            r.tracer.spans[|t.spans|].parent == Remote(env.extract(scope.headers.value)))
      && (!activated ==>
            r.tracer.context == t.context && r.tracer.spans[|t.spans|].parent == ParentFor(t))
  {
    var stamped := scope.(tracer := Some(mw.tracer));
    var inSpan := OpenRequestSpan(mw, env, stamped, t);
    var after := RunSteps(mw.app.steps, inSpan, Traced(mw, env, stamped)).0;
    assert after.spans[|t.spans|].parent == inSpan.spans[|t.spans|].parent;
  }

  /** On a well-formed HTTP request the span the application runs inside
      carries the static tags first and the backend's annotations over
      them: the resource is the method and path, the method and URL tags
      are the backend's even when a static tag has the same name, and every
      other static tag survives unless a request header tag replaced it. */
  lemma StaticTagsThenBackend(mw: TraceMiddleware, env: Env, scope: Scope, t: Tracer)
    requires Valid(t) && scope.kind == Some(HTTP_SCOPE) && !Malformed(env, scope)
    ensures var span := OpenRequestSpan(mw, env, scope, t).spans[|t.spans|].span;
      var headerTags := env.requestHeaderTags(RequestHeaders(scope), mw.backend.config);
      && span.resource == scope.httpMethod.value + " " + env.url(scope).value.path
      && METHOD_TAG in span.tags && span.tags[METHOD_TAG] == scope.httpMethod.value
      && URL_TAG in span.tags && span.tags[URL_TAG] == env.url(scope).value.text
      && (forall k | k in mw.tags && !IsRequestKey(k) && k !in headerTags :: k in span.tags && span.tags[k] == mw.tags[k])
      && span.sampleRate == mw.backend.config.analyticsSampleRate
      && !span.dropped
  {
  }

  /** A scope missing `method`, `path` or `headers` (for a URL builder that,
      like Starlette's, needs the last two) does not fail the call: the
      application runs as usual and its messages and exception pass
      through, while the request span keeps its default resource and the
      static tags only, and is marked to be dropped. */
  lemma MalformedScopeStillServed(mw: TraceMiddleware, env: Env, scope: Scope, t: Tracer)
    requires Valid(t) && scope.kind == Some(HTTP_SCOPE) && UrlNeedsPathAndHeaders(env)
    requires scope.httpMethod.None? || scope.path.None? || scope.headers.None?
    ensures var r := Call(mw, env, scope, t);
      && r.appCalls == [AppCall(r.scope, TracedSend)]
      && r.sent == Messages(mw.app.steps) && r.outcome == AppOutcome(mw.app)
      && OpenRequestSpan(mw, env, r.scope, t).spans[|t.spans|].span == FreshRequestSpan(mw).(dropped := true)
      && r.tracer.spans[|t.spans|].span.dropped
      && r.tracer.spans[|t.spans|].span.resource == REQUEST_SPAN_NAME
  {
    var stamped := scope.(tracer := Some(mw.tracer));
    assert Malformed(env, stamped);
    var inSpan := OpenRequestSpan(mw, env, stamped, t);
    var after := RunSteps(mw.app.steps, inSpan, Traced(mw, env, stamped)).0;
    ClosedAfterRun(t, inSpan, after, ChildCount(mw.app.steps), mw.app.raises);
  }

  /** An application that opens no child spans. */
  predicate Flat(steps: seq<AppStep>) {
    forall i | 0 <= i < |steps| :: steps[i].Send?
  }

  /** Reference behaviour: each response start in `messages`, in order,
      annotates the span through the backend; other messages leave it
      alone. */
  function AnnotateResponses(backend: TraceBackend, env: Env, span: Span, scope: Scope, messages: seq<Message>): Span
    decreases |messages|
  {
    if |messages| == 0 then span
    else
      var next := if messages[0].kind == Some(RESPONSE_START) then OnHttpResponse(backend, env, span, scope, messages[0]) else span;
      AnnotateResponses(backend, env, next, scope, messages[1..])
  }

  /** Without child spans, every message goes through the tracing `send`
      with the same span current, so that span ends up annotated by exactly
      the response starts sent, in order, and nothing else changes. */
  lemma {:induction false} FlatRunAnnotates(steps: seq<AppStep>, t: Tracer, mw: TraceMiddleware, env: Env, scope: Scope)
    requires Valid(t) && t.current.Some? && Flat(steps)
    ensures var c := t.current.value;
      RunSteps(steps, t, Traced(mw, env, scope)).0
        == t.(spans := t.spans[c := t.spans[c].(span := AnnotateResponses(mw.backend, env, t.spans[c].span, scope, Messages(steps)))])
  {
    var c := t.current.value;
    if |steps| > 0 {
      var message := steps[0].message;
      var t1 := SendWithTracing(mw, env, t, scope, message).0;
      var next := if message.kind == Some(RESPONSE_START) then OnHttpResponse(mw.backend, env, t.spans[c].span, scope, message) else t.spans[c].span;
      assert t1 == t.(spans := t.spans[c := t.spans[c].(span := next)]);
      FlatRunAnnotates(steps[1..], t1, mw, env, scope);
      assert Messages(steps)[1..] == Messages(steps[1..]);
    }
  }

  /** For an application without child spans, the request span is annotated
      by exactly the response starts that reached the server, in order, and
      then marked with the application's exception. */
  lemma ResponsesAnnotateRequestSpan(mw: TraceMiddleware, env: Env, scope: Scope, t: Tracer)
    requires Valid(t) && scope.kind == Some(HTTP_SCOPE) && Flat(mw.app.steps)
    ensures var r := Call(mw, env, scope, t);
      r.tracer.spans[|t.spans|].span
        == AnnotateResponses(mw.backend, env, OpenRequestSpan(mw, env, r.scope, t).spans[|t.spans|].span, r.scope, r.sent)
             .(error := mw.app.raises)
  {
    var stamped := scope.(tracer := Some(mw.tracer));
    var inSpan := OpenRequestSpan(mw, env, stamped, t);
    FlatRunAnnotates(mw.app.steps, inSpan, mw, env, stamped);
    RequestSpanUnannotated(mw.backend, env, FreshRequestSpan(mw), stamped);
    AnnotationsKeepError(mw.backend, env, inSpan.spans[|t.spans|].span, stamped, Messages(mw.app.steps));
  }

  /** Response annotations write only tags. */
  lemma {:induction false} AnnotationsKeepError(backend: TraceBackend, env: Env, span: Span, scope: Scope, messages: seq<Message>)
    ensures AnnotateResponses(backend, env, span, scope, messages) == span.(tags := AnnotateResponses(backend, env, span, scope, messages).tags)
    decreases |messages|
  {
    if |messages| > 0 {
      var next := if messages[0].kind == Some(RESPONSE_START) then OnHttpResponse(backend, env, span, scope, messages[0]) else span;
      AnnotationsKeepError(backend, env, next, scope, messages[1..]);
    }
  }

  /** A comma-separated string of tags configures the same static tags as
      the list of its stripped pieces. */
  lemma StringAndListTagsAgree(app: App, globalTracer: TracerRef, globalConfig: IntegrationConfig,
                               tracer: Option<TracerRef>, service: Option<string>,
                               distributedTracing: Option<bool>, backend: Option<TraceBackend>, pieces: seq<string>)
    requires forall i | 0 <= i < |pieces| :: IsPiece(pieces[i])
    ensures var fromString := New(app, globalTracer, globalConfig, tracer, service, TagString(Join(pieces, ",")), distributedTracing, backend);
      var fromList := New(app, globalTracer, globalConfig, tracer, service, TagList(StripAll(pieces)), distributedTracing, backend);
      fromString.Success? && fromList.Success? && fromString.value == fromList.value
  {
    StaticTagsAgree(pieces);
  }

  lemma StaticTagsAgree(pieces: seq<string>)
    requires forall i | 0 <= i < |pieces| :: IsPiece(pieces[i])
    ensures StaticTags(TagString(Join(pieces, ","))) == StaticTags(TagList(StripAll(pieces)))
  {
    StringParseIsListParse(pieces);
  }
}

=== FILE: options.dfy ===
/** Optional values and success/failure results, used wherever the source
    reads a field that may be missing or raises instead of returning. */
module Options {

  datatype Option<+T> = None | Some(value: T) {

    /** The value held in Some, or the given default (Python's `d.get(k, default)`). */
    function GetOr(default: T): T {
      if Some? then value else default
    }
  }

  datatype Result<+T, +E> = Success(value: T) | Failure(error: E)
}

=== FILE: strings.dfy ===
/** The few pieces of Python's `str` behaviour the middleware relies on:
    `str.partition`, `str.strip` and `str(int)`. */
module Strings {
  import opened Options

  /** Python's `s.partition(sep)`: the text before the first `sep`, the
      separator itself (empty when absent), and the rest. */
  function Partition(s: string, sep: char): (r: (string, string, string))
    ensures sep in s ==> r.1 == [sep] && s == r.0 + [sep] + r.2 && sep !in r.0
    ensures sep !in s ==> r == (s, "", "")
  {
    if |s| == 0 then ("", "", "")
    else if s[0] == sep then ("", [sep], s[1..])
    else
      var (head, mid, tail) := Partition(s[1..], sep);
      assert s == [s[0]] + s[1..];
      ([s[0]] + head, mid, tail)
  }

  /** The split at the first separator is the only one whose head is free of
      the separator. */
  lemma {:induction false} PartitionUnique(s: string, sep: char, head: string, tail: string)
    requires s == head + [sep] + tail
    requires sep !in head
    ensures Partition(s, sep) == (head, [sep], tail)
  {
    if head == [] {
      assert s[1..] == tail;
    } else {
      assert s[0] == head[0];
      assert s[1..] == head[1..] + [sep] + tail;
      PartitionUnique(s[1..], sep, head[1..], tail);
      assert head == [s[0]] + head[1..];
    }
  }

  /** Characters for which Python's `str.isspace()` holds. */
  predicate IsSpace(c: char) {
    var n := c as int;
    || n == 0x20
    || 0x09 <= n <= 0x0D
    || 0x1C <= n <= 0x1F
    || n == 0x85 || n == 0xA0 || n == 0x1680
    || 0x2000 <= n <= 0x200A
    || n == 0x2028 || n == 0x2029 || n == 0x202F || n == 0x205F || n == 0x3000
  }

  predicate AllSpace(s: string) {
    forall i | 0 <= i < |s| :: IsSpace(s[i])
  }

  /** No whitespace at either end. */
  predicate IsTrimmed(s: string) {
    s == [] || (!IsSpace(s[0]) && !IsSpace(s[|s| - 1]))
  }

  function StripLeft(s: string): (r: string)
    ensures |r| <= |s| && r == s[|s| - |r|..]
    ensures AllSpace(s[..|s| - |r|])
    ensures r == [] || !IsSpace(r[0])
  {
    if |s| > 0 && IsSpace(s[0]) then StripLeft(s[1..]) else s
  }

  function StripRight(s: string): (r: string)
    ensures |r| <= |s| && r == s[..|r|]
    ensures AllSpace(s[|r|..])
    ensures r == [] || !IsSpace(r[|r| - 1])
  {
    if |s| > 0 && IsSpace(s[|s| - 1]) then
      var r := StripRight(s[..|s| - 1]);
      assert s[|r|..] == s[..|s| - 1][|r|..] + [s[|s| - 1]];
      r
    else s
  }

  /** `s` is `r` with whitespace in front of offset `lead` and after it. */
  predicate PaddedBySpace(s: string, r: string, lead: nat) {
    && lead + |r| <= |s|
    && s[lead..lead + |r|] == r
    && AllSpace(s[..lead])
    && AllSpace(s[lead + |r|..])
  }

  /** Python's `s.strip()`: `s` is `r` padded on both sides by whitespace,
      and `r` itself has none at its ends. */
  function Strip(s: string): (r: string)
    ensures IsTrimmed(r)
    ensures PaddedBySpace(s, r, |s| - |StripLeft(s)|)
  {
    var left := StripLeft(s);
    var r := StripRight(left);
    StripParts(s, left, r);
    r
  }

  lemma StripParts(s: string, left: string, r: string)
    requires |left| <= |s| && left == s[|s| - |left|..] && AllSpace(s[..|s| - |left|])
    requires |r| <= |left| && r == left[..|r|] && AllSpace(left[|r|..])
    ensures PaddedBySpace(s, r, |s| - |left|)
  {
    var lead := |s| - |left|;
    assert s[lead..lead + |r|] == left[..|r|];
    assert s[lead + |r|..] == left[|r|..];
  }

  /** Stripping removes exactly the whitespace padding around trimmed text. */
  lemma {:induction false} StripPadded(lead: string, s: string, trail: string)
    requires AllSpace(lead) && AllSpace(trail) && IsTrimmed(s)
    ensures Strip(lead + s + trail) == s
  {
    assert lead + s + trail == lead + (s + trail);
    if s == [] {
      StripLeftAllSpace(lead + trail);
      assert lead + s + trail == lead + trail;
    } else {
      StripLeftPadded(lead, s + trail);
      StripRightPadded(s, trail);
    }
  }

  lemma {:induction false} StripLeftPadded(lead: string, s: string)
    requires AllSpace(lead)
    requires s == [] || !IsSpace(s[0])
    ensures StripLeft(lead + s) == s
  {
    if |lead| > 0 {
      assert (lead + s)[1..] == lead[1..] + s;
      StripLeftPadded(lead[1..], s);
    }
  }

  lemma {:induction false} StripLeftAllSpace(s: string)
    requires AllSpace(s)
    ensures StripLeft(s) == []
  {
    if |s| > 0 {
      StripLeftAllSpace(s[1..]);
    }
  }

  lemma {:induction false} StripRightPadded(s: string, trail: string)
    requires AllSpace(trail)
    requires s == [] || !IsSpace(s[|s| - 1])
    ensures StripRight(s + trail) == s
  {
    if |trail| > 0 {
      assert (s + trail)[..|s + trail| - 1] == s + trail[..|trail| - 1];
      StripRightPadded(s, trail[..|trail| - 1]);
    }
  }

  // ---- str(int) ----

  predicate IsDigit(c: char) {
    '0' as int <= c as int <= '9' as int
  }

  function DigitChar(d: nat): (c: char)
    requires d < 10
    ensures IsDigit(c) && (c as int) - ('0' as int) == d
  {
    (('0' as int) + d) as char
  }

  /** Decimal digits of a natural number, most significant first. */
  function Digits(n: nat): (r: string)
    ensures |r| >= 1
    ensures forall i | 0 <= i < |r| :: IsDigit(r[i])
    ensures r[0] == '0' ==> n == 0 && r == "0"
  {
    if n < 10 then [DigitChar(n)] else Digits(n / 10) + [DigitChar(n % 10)]
  }

  /** Python's `str(n)` for an integer: optional minus sign, then digits
      without leading zeros. */
  function DecimalString(n: int): (r: string)
    ensures |r| >= 1
    ensures n < 0 <==> r[0] == '-'
    ensures var start := if n < 0 then 1 else 0;
      start < |r| && AllDigits(r[start..]) && (r[start] == '0' ==> n == 0 && r == "0")
  {
    if n < 0 then "-" + Digits(-n) else Digits(n)
  }

  predicate AllDigits(s: string) {
    forall i | 0 <= i < |s| :: IsDigit(s[i])
  }

  /** Value of a run of decimal digits (0 for the empty run). */
  function DigitsValue(s: string): nat
    requires AllDigits(s)
  {
    if |s| == 0 then 0
    else
      assert IsDigit(s[|s| - 1]);
      DigitsValue(s[..|s| - 1]) * 10 + ((s[|s| - 1] as int) - ('0' as int))
  }

  /** Reads back an integer written by `DecimalString`: an optional minus sign
      followed by at least one digit. */
  function ParseDecimal(s: string): Option<int> {
    if |s| > 0 && s[0] == '-' then
      if |s| > 1 && AllDigits(s[1..]) then
        var magnitude: int := DigitsValue(s[1..]);
        Some(-magnitude)
      else None
    else if |s| > 0 && AllDigits(s) then Some(DigitsValue(s))
    else None
  }

  lemma {:induction false} DigitsRoundTrip(n: nat)
    ensures AllDigits(Digits(n)) && DigitsValue(Digits(n)) == n
  {
    if n >= 10 {
      var d := Digits(n);
      assert d[..|d| - 1] == Digits(n / 10);
      DigitsRoundTrip(n / 10);
    }
  }

  /** The status tag written by the backend reads back as the status code. */
  lemma DecimalRoundTrip(n: int)
    ensures ParseDecimal(DecimalString(n)) == Some(n)
  {
    if n < 0 {
      NegativeRoundTrip(n);
    } else {
      DigitsRoundTrip(n);
    }
  }

  lemma NegativeRoundTrip(n: int)
    requires n < 0
    ensures ParseDecimal(DecimalString(n)) == Some(n)
  {
    var d := Digits(-n);
    var s := DecimalString(n);
    assert s == "-" + d;
    assert s[1..] == d;
    DigitsRoundTrip(-n);
  }
}

=== FILE: tag_parsing.dfy ===
/** The tag-list parser of `_utils.py`: each `name:value` token is split at
    its first colon and stored in a map, later tokens overwriting earlier
    ones. */
module TagParsing {
  import opened Strings
  import opened Asgi

  /** The text before the first colon of a token (the whole token if none). */
  function TagName(tag: string): string {
    Partition(tag, ':').0
  }

  /** The text after the first colon of a token (empty if none). */
  function TagValue(tag: string): string {
    Partition(tag, ':').2
  }

  /** No token after position `i` carries the same name as `tags[i]`. */
  predicate IsLastOfName(tags: seq<string>, i: int)
    requires 0 <= i < |tags|
  {
    forall j | i < j < |tags| :: TagName(tags[j]) != TagName(tags[i])
  }

  /** The keys of `parsed` are exactly the names of the tokens. */
  ghost predicate KeysAreNames(parsed: Tags, tags: seq<string>) {
    parsed.Keys == set i | 0 <= i < |tags| :: TagName(tags[i])
  }

  /** Each name holds the value of its last token. */
  ghost predicate LastValuesWin(parsed: Tags, tags: seq<string>) {
    forall i | 0 <= i < |tags| && IsLastOfName(tags, i) ::
      TagName(tags[i]) in parsed && parsed[TagName(tags[i])] == TagValue(tags[i])
  }

  /** `parse_tags_from_list`: the loop over the tokens, read as a fold from
      the left in which each token overwrites the entry for its name. The
      parser never fails; the keys are exactly the tokens' names, and each
      key holds the value of the last token with that name. A token without a
      colon maps its whole text to "". */
  function ParseTagsFromList(tags: seq<string>): (parsed: Tags)
    ensures KeysAreNames(parsed, tags)
    ensures LastValuesWin(parsed, tags)
  {
    if |tags| == 0 then map[]
    else
      var last := tags[|tags| - 1];
      var prev := ParseTagsFromList(tags[..|tags| - 1]);
      ParseStep(prev, tags);
      prev[TagName(last) := TagValue(last)]
  }

  /** One iteration of the parser's loop keeps both properties. */
  lemma ParseStep(prev: Tags, tags: seq<string>)
    requires |tags| > 0
    requires KeysAreNames(prev, tags[..|tags| - 1]) && LastValuesWin(prev, tags[..|tags| - 1])
    ensures KeysAreNames(prev[TagName(tags[|tags| - 1]) := TagValue(tags[|tags| - 1])], tags)
    ensures LastValuesWin(prev[TagName(tags[|tags| - 1]) := TagValue(tags[|tags| - 1])], tags)
  {
    ParseStepKeys(prev, tags[..|tags| - 1], tags[|tags| - 1], tags);
    ParseStepValues(prev, tags[..|tags| - 1], tags[|tags| - 1], tags);
  }

  lemma ParseStepKeys(prev: Tags, init: seq<string>, last: string, tags: seq<string>)
    requires tags == init + [last]
    requires KeysAreNames(prev, init)
    ensures KeysAreNames(prev[TagName(last) := TagValue(last)], tags)
  {
    var parsed := prev[TagName(last) := TagValue(last)];
    forall k | k in parsed.Keys
      ensures k in set i | 0 <= i < |tags| :: TagName(tags[i])
    {
      if k != TagName(last) {
        var i :| 0 <= i < |init| && TagName(init[i]) == k;
        assert tags[i] == init[i];
      } else {
        assert tags[|init|] == last;
      }
    }
    forall i | 0 <= i < |tags|
      ensures TagName(tags[i]) in parsed.Keys
    {
      if i < |init| {
        assert tags[i] == init[i];
      }
    }
  }

  lemma ParseStepValues(prev: Tags, init: seq<string>, last: string, tags: seq<string>)
    requires tags == init + [last]
    requires LastValuesWin(prev, init)
    ensures LastValuesWin(prev[TagName(last) := TagValue(last)], tags)
  {
    var parsed := prev[TagName(last) := TagValue(last)];
    forall i | 0 <= i < |tags| && IsLastOfName(tags, i)
      ensures TagName(tags[i]) in parsed && parsed[TagName(tags[i])] == TagValue(tags[i])
    {
      if i < |init| {
        assert tags[i] == init[i];
        assert tags[|init|] == last;
        assert IsLastOfName(init, i) by {
          forall j | i < j < |init| ensures TagName(init[j]) != TagName(init[i]) {
            assert init[j] == tags[j];
          }
        }
      }
    }
  }

  /** The map never has more entries than there were tokens. */
  lemma {:induction false} ParseTagsSize(tags: seq<string>)
    ensures |ParseTagsFromList(tags)| <= |tags|
  {
    if |tags| > 0 {
      ParseTagsSize(tags[..|tags| - 1]);
    }
  }

  /** Appending a token overwrites the entry for its name (a helper that
      unfolds the parser at a concatenation). */
  lemma ParseSnoc(init: seq<string>, last: string)
    ensures ParseTagsFromList(init + [last])
         == ParseTagsFromList(init)[TagName(last) := TagValue(last)]
  {
    assert (init + [last])[..|init|] == init;
  }

  lemma UpdateUnion(a: Tags, b: Tags, k: string, v: string)
    ensures (a + b)[k := v] == a + b[k := v]
  {
  }

  /** Parsing a concatenation is parsing each part, the later part winning on
      shared names. */
  lemma {:induction false} ParseTagsAppend(first: seq<string>, second: seq<string>)
    ensures ParseTagsFromList(first + second)
         == ParseTagsFromList(first) + ParseTagsFromList(second)
  {
    if |second| == 0 {
      assert first + second == first;
    } else {
      var init := second[..|second| - 1];
      var last := second[|second| - 1];
      assert second == init + [last];
      assert first + second == (first + init) + [last];
      ParseSnoc(first + init, last);
      ParseSnoc(init, last);
      ParseTagsAppend(first, init);
      UpdateUnion(ParseTagsFromList(first), ParseTagsFromList(init), TagName(last), TagValue(last));
    }
  }

  /** No tokens, no tags. */
  lemma EmptyListExample()
    ensures ParseTagsFromList([]) == map[]
  {
  }

  /** The split is at the first colon only: the value may contain colons. */
  lemma SplitAtFirstColon(name: string, value: string)
    requires ':' !in name
    ensures ParseTagsFromList([name + ":" + value]) == map[name := value]
  {
    PartitionUnique(name + ":" + value, ':', name, value);
  }

  /** A token without a colon is not an error: its whole text becomes a key
      with the empty value. */
  lemma TokenWithoutColon(tag: string)
    requires ':' !in tag
    ensures ParseTagsFromList([tag]) == map[tag := ""]
  {
  }

  /** `"env:staging:east"` gives `{"env": "staging:east"}`. */
  lemma StagingEastExample()
    ensures ParseTagsFromList(["env:staging:east"]) == map["env" := "staging:east"]
  {
    SplitAtFirstColon("env", "staging:east");
    assert "env" + ":" + "staging:east" == "env:staging:east";
  }

  /** `"env-testing"` gives `{"env-testing": ""}`. The test table at
      tests/test_trace_middleware.py:264 expects a ValueError for this token,
      but `str.partition` cannot raise, so the parser as written accepts it. */
  lemma NoColonExample()
    ensures ParseTagsFromList(["env-testing"]) == map["env-testing" := ""]
  {
    TokenWithoutColon("env-testing");
  }

  /** For a repeated name the last token wins. */
  lemma LastDuplicateWins(name: string, earlier: string, later: string)
    requires ':' !in name
    ensures ParseTagsFromList([name + ":" + earlier, name + ":" + later]) == map[name := later]
  {
    SplitAtFirstColon(name, earlier);
    SplitAtFirstColon(name, later);
    ParseTagsAppend([name + ":" + earlier], [name + ":" + later]);
    assert [name + ":" + earlier] + [name + ":" + later]
        == [name + ":" + earlier, name + ":" + later];
  }

  // ---- rendering a map back into tokens ----

  function RenderTag(entry: (string, string)): string {
    entry.0 + ":" + entry.1
  }

  function RenderTags(entries: seq<(string, string)>): (tokens: seq<string>)
    ensures |tokens| == |entries|
    ensures forall i | 0 <= i < |entries| :: tokens[i] == RenderTag(entries[i])
  {
    if |entries| == 0 then [] else RenderTags(entries[..|entries| - 1]) + [RenderTag(entries[|entries| - 1])]
  }

  /** The entries of a map in some order. */
  ghost function MapEntries(m: Tags): (entries: seq<(string, string)>)
    ensures forall i | 0 <= i < |entries| :: entries[i].0 in m && entries[i].1 == m[entries[i].0]
    decreases |m|
  {
    if m == map[] then []
    else
      var k :| k in m;
      MapEntries(m - {k}) + [(k, m[k])]
  }

  /** Round trip: writing every entry of a map as `name:value` and parsing
      the tokens gives the map back, provided no name contains a colon. */
  lemma {:induction false} RenderParseRoundTrip(m: Tags)
    requires forall k | k in m :: ':' !in k
    ensures ParseTagsFromList(RenderTags(MapEntries(m))) == m
    decreases |m|
  {
    if m != map[] {
      var entries := MapEntries(m);
      var init := entries[..|entries| - 1];
      var k := entries[|entries| - 1].0;
      assert entries[|entries| - 1] == (k, m[k]);
      var rest := m - {k};
      assert init == MapEntries(rest);
      RenderParseRoundTrip(rest);
      RenderSnoc(entries, k, m[k]);
      MapRestore(m, k);
    }
  }

  lemma MapRestore(m: Tags, k: string)
    requires k in m
    ensures (m - {k})[k := m[k]] == m
  {
  }

  /** Rendering and parsing one more entry, whose name has no colon, sets
      exactly that entry. */
  lemma RenderSnoc(entries: seq<(string, string)>, k: string, v: string)
    requires |entries| > 0 && entries[|entries| - 1] == (k, v) && ':' !in k
    ensures ParseTagsFromList(RenderTags(entries))
         == ParseTagsFromList(RenderTags(entries[..|entries| - 1]))[k := v]
  {
    var init := entries[..|entries| - 1];
    assert RenderTags(entries) == RenderTags(init) + [RenderTag((k, v))];
    ParseSnoc(RenderTags(init), RenderTag((k, v)));
    PartitionUnique(RenderTag((k, v)), ':', k, v);
  }
}

=== FILE: tracing.dfy ===
/** The part of the ddtrace tracer the middleware relies on, as plain state:
    the spans created so far (with their parent link and how often each was
    finished), the current span, and the activated distributed context.
    Identifiers, sampling and the writer are not modelled; a span is named
    by its position in `spans`. */
module Tracing {
  import opened Options
  import opened Asgi

  /** Trace and parent identifiers read from incoming headers; a zero trace
      id means none was found. */
  datatype DistContext = DistContext(traceId: int, parentId: int)

  /** What the middleware and the backend can write on a span. `dropped` is
      the manual-drop sampling decision and `sampleRate` the analytics sample
      rate; `error` records the exception the span was closed with. */
  datatype Span = Span(
    name: string,
    service: Option<string>,
    spanType: Option<string>,
    resource: string,
    tags: Tags,
    sampleRate: Option<real>,
    dropped: bool,
    error: Option<Error>)

  /** A span's parent: none, a span of this tracer, or a remote span named
      by an activated distributed context. */
  datatype Parent = Root | Local(index: nat) | Remote(context: DistContext)

  datatype SpanRecord = SpanRecord(span: Span, parent: Parent, finishes: nat)

  datatype Tracer = Tracer(context: Option<DistContext>, current: Option<nat>, spans: seq<SpanRecord>)

  /** The current span exists, and a local parent was created before its
      child. */
  predicate Valid(t: Tracer) {
    && (t.current.Some? ==> t.current.value < |t.spans|)
    && forall i | 0 <= i < |t.spans| :: t.spans[i].parent.Local? ==> t.spans[i].parent.index < i
  }

  /** The parent a span started now receives: the current span if any, else
      the activated distributed context if any. */
  function ParentFor(t: Tracer): Parent {
    if t.current.Some? then Local(t.current.value)
    else if t.context.Some? then Remote(t.context.value)
    else Root
  }

  /** `tracer.trace(name, service, resource, span_type)`: a fresh span, child
      of `ParentFor(t)`, becomes current; without a service it inherits the
      current span's, and without a resource the resource is the name. */
  function StartSpan(t: Tracer, name: string, service: Option<string>, spanType: Option<string>,
                     resource: Option<string>): (r: Tracer)
    requires Valid(t)
    ensures Valid(r)
    ensures |r.spans| == |t.spans| + 1 && r.spans[..|t.spans|] == t.spans
    ensures r.current == Some(|t.spans|) && r.context == t.context
    ensures r.spans[|t.spans|].parent == ParentFor(t) && r.spans[|t.spans|].finishes == 0
    ensures r.spans[|t.spans|].span.name == name && r.spans[|t.spans|].span.error.None?
  {
    var inherited := if t.current.Some? then t.spans[t.current.value].span.service else None;
    var span := Span(name, if service.Some? then service else inherited, spanType,
                     resource.GetOr(name), map[], None, false, None);
    Tracer(t.context, Some(|t.spans|), t.spans + [SpanRecord(span, ParentFor(t), 0)])
  }

  /** `span.finish()`: counts one more finish, and the span's local parent
      (or nothing) becomes current. */
  function FinishSpan(t: Tracer, i: nat): (r: Tracer)
    requires Valid(t) && i < |t.spans|
    ensures Valid(r)
    ensures r.context == t.context
    ensures r.spans == t.spans[i := t.spans[i].(finishes := t.spans[i].finishes + 1)]
    ensures r.current == if t.spans[i].parent.Local? then Some(t.spans[i].parent.index) else None
  {
    var record := t.spans[i];
    Tracer(t.context,
           if record.parent.Local? then Some(record.parent.index) else None,
           t.spans[i := record.(finishes := record.finishes + 1)])
  }

  /** Replaces what is written on span `i`. */
  function SetSpan(t: Tracer, i: nat, span: Span): (r: Tracer)
    requires Valid(t) && i < |t.spans|
    ensures Valid(r)
    ensures r.context == t.context && r.current == t.current
    ensures r.spans == t.spans[i := t.spans[i].(span := span)]
  {
    t.(spans := t.spans[i := t.spans[i].(span := span)])
  }

  /** `context_provider.activate(context)`: a new active context with no
      current span. */
  function Activate(t: Tracer, context: DistContext): (r: Tracer)
    requires Valid(t)
    ensures Valid(r)
    ensures r.context == Some(context) && r.current.None? && r.spans == t.spans
  {
    Tracer(Some(context), None, t.spans)
  }
}
